=== FILE: README.md ===
# Telemetry coalescing and landing distribution, modelled in Dafny

This project models two pieces of a Nano/RaiBlocks node.

**Telemetry** (`nano/node/telemetry.cpp`). A node asks its peers for metrics
reports. A *coalescer* (`telemetry_impl`) does the asking:
- it holds a FIFO queue of callbacks waiting for a result;
- at most one request *round* is in flight, awaiting a set of endpoints;
- it keeps a cache of the last completed round's reports, stamped with the
  time the round completed.

A query joins the queue. The first queued query either schedules a cached
flush on the worker, when the cache is younger than the cutoff, or starts a
round. Reports, send failures and per-peer timeouts remove endpoints from the
awaited set. The removal that empties the set commits the round's reports to
the cache and flushes every queued callback. The flush loop re-checks the
queue after each pass, so callbacks added meanwhile are served by the same
flush.

The *coordinator* (`telemetry`) owns:
- one coalescer for queries over a random sample of peers;
- one coalescer per peer queried on its own, stamped with the time it was
  last queried.

It routes every report to all of them, translates a single-peer result into
a success or an error, drops idle per-peer coalescers on an alarm, and stops.

**Landing** (`rai/node/testing.cpp`). A test system distributes funds from
a source account to a destination account:
- the amount per time interval follows a halving schedule
  (`distribution_amount`);
- `distribute_one` catches up on every fully elapsed interval, sending one
  amount per interval through the wallet until a send fails;
- `landing_store` holds the persisted state: source, destination, start and
  last-paid time;
- the test system's random send amount scales a random 128-bit number onto a
  balance (`get_random_amount`).

Modelling choices:
- Every asynchronous completion of `telemetry_impl` is an event applied
  atomically to an immutable state:
  - a report arriving, a send failing, a timeout alarm;
  - the worker's cached flush;
  - one pass of the flush loop and the loop's re-check.

  A query is one event, although `get_metrics_async` takes the lock twice,
  and a flush pass reads all-received once, although `invoke_callbacks`
  reads it outside the lock for each callback. Interleavings at those two
  spots are not covered; "## Left out" names them.
- The clock is an explicit `now`. The cutoff, the minimum protocol version,
  the interval exponent and the distribution interval are parameters.
- Each callback is identified by a number. Every invocation is appended to a
  trace (coalescer) or an answer list (coordinator).
- The wallet is an oracle: a function from the send's index to the resulting
  block hash, where zero means failure.
- `uint64_t` additions and subtractions wrap modulo 2^64. The 128-bit shifts
  are stated as powers of two below 2^128.

Modules:
- `TelemetryTypes` holds endpoints, reports, result records and deliveries.
- `Coalescer` models `telemetry_impl`; `CoalescerProperties` proves its
  invariant, callback conservation and behaviour.
- `Coordinator` models `telemetry`; `CoordinatorProperties` proves its
  invariant and end-to-end results.
- `Bits` holds powers of two and the fixed-width ranges.
- `Landing` models `landing` and `landing_store`.
- `TestSystem` models `get_random_amount`.

Behaviours of the code worth noting:
- A send failure clears the round's all-received flag whether or not the
  endpoint is still awaited (`nano/node/telemetry.cpp:309-315`). A timeout
  only does so behind its round and membership guard.
  `CoalescerProperties.LateSendErrorClearsAllReceived` states this.
- A new round's awaited set is the union of the old set and the peers
  (`std::inserter`, line 237). `CoalescerProperties.StaleCacheStartsRound`
  proves that the old set is always empty there, so the union is exactly
  the peers.
- The single-peer translation passes the round's `is_cached` flag through,
  also for error results (line 147).

## Model

| member | source | states |
|---|---|---|
| Coalescer.Initial | nano/node/telemetry.cpp:186-191 | a new coalescer satisfies the invariant, has nothing queued, awaited, posted or flushing, no reports and an empty cache stamped at the epoch, round zero, all-received false and an empty trace |
| Coalescer.GetMetrics | nano/node/telemetry.cpp:208-243 | the callback is appended to the queue; the trace, cache, cache time and current reports are untouched; the round counter grows by one only if nothing was queued or flushing |
| Coalescer.InvokeCallbacks | nano/node/telemetry.cpp:258-273 | a pass appends exactly its deliveries to the trace; invoked-then-queued callbacks are conserved; a pass of a running flush empties the queue and the round's reports and keeps the flush's cached flag; outside a running flush with callbacks queued nothing changes; round, awaited set, cache and all-received are untouched |
| Coalescer.FlushCheck | nano/node/telemetry.cpp:199-205 | the flush keeps running exactly while it runs and the queue is non-empty; nothing else changes |
| Coalescer.BeginFlush | nano/node/telemetry.cpp:193-199 | after entry the flush runs exactly when callbacks are queued, with the given cached flag; no other field changes |
| Coalescer.ChannelProcessed | nano/node/telemetry.cpp:275-288 | the endpoint leaves the awaited set; removing the last awaited endpoint commits the round's reports to the cache at the current time and starts an uncached flush, which runs exactly when callbacks are queued; any other removal changes nothing else; round, all-received, trace and queue are unchanged |
| Coalescer.Add | nano/node/telemetry.cpp:245-256 | after a report the endpoint is not awaited; a report from an awaited endpoint that does not close the round is appended to the round's reports and nothing else changes; one that closes the round makes the round's reports with it the cache at the current time; round, all-received and trace are unchanged |
| Coalescer.OnSendError | nano/node/telemetry.cpp:306-317 | after a send failure all-received is false and the endpoint is not awaited; round, trace and queue are unchanged |
| Coalescer.OnTimeout | nano/node/telemetry.cpp:319-330 | a timeout of the current round leaves the endpoint not awaited; round, trace and queue never change |
| Coalescer.RunCacheFlush | nano/node/telemetry.cpp:224-231 | the worker task, when posted, clears the pending flag and runs a cached flush over the queued callbacks, which runs exactly when some are queued; round, awaited set, reports, cache, cache time and all-received are untouched; when not posted nothing changes |
| CoalescerProperties.StepPreservesValid | nano/node/telemetry.cpp:193-330 | every event keeps the coalescer invariant: a flush runs only with no round in flight; every queued callback is served by a round, the worker or a flush; reports accumulate only inside a round |
| CoalescerProperties.RunPreservesValid | nano/node/telemetry.cpp:193-330 | the invariant holds after any run of events |
| CoalescerProperties.StepConservesCallbacks | nano/node/telemetry.cpp:213 | each event either queues its one callback or moves callbacks from the queue's front to the trace in order |
| CoalescerProperties.RunConservesCallbacks | nano/node/telemetry.cpp:258-273 | over any run, invoked callbacks followed by queued ones are exactly the registered ones in order: each callback runs at most once, in FIFO order, and one not yet run is still queued |
| CoalescerProperties.RunExtendsTrace | nano/node/telemetry.cpp:269-272 | over any run the trace is only extended, never rewritten |
| CoalescerProperties.BusyQueryOnlyQueues | nano/node/telemetry.cpp:214-218 | a query finding a pending callback or a running flush only queues its callback |
| CoalescerProperties.CacheHitKeepsWindow | nano/node/telemetry.cpp:220-231 | after a cache hit is served the coalescer is as before apart from the one delivery and the flush flag, so every later query inside the same window is again a cache hit |
| CoalescerProperties.FreshCacheServesCachedResult | nano/node/telemetry.cpp:220-233 | a first query inside the cache window starts no round; the worker's flush gives the callback the cached reports, marked cached, with the last round's all-received flag, and then ends |
| CoalescerProperties.StaleCacheStartsRound | nano/node/telemetry.cpp:235-239 | a first query outside the cache window finds the awaited set empty, awaits exactly the queried peers, sets all-received and advances the round |
| CoalescerProperties.QueriesCoalesce | nano/node/telemetry.cpp:213-218 | any number of queries queue their callbacks in order and start at most one round; when busy they leave the round alone |
| CoalescerProperties.CoalescedCallersShareOneRound | nano/node/telemetry.cpp:208-288 | callers querying one peer share a single round, and its report's flush gives each caller, in order, the same uncached complete result |
| CoalescerProperties.ReentrantQueryJoinsFlush | nano/node/telemetry.cpp:195-204 | a query made during a flush is served by that flush's next pass with the same result, after which the flush ends |
| CoalescerProperties.UnrequestedReportIgnored | nano/node/telemetry.cpp:248-252 | a report from an endpoint that is not awaited changes nothing |
| CoalescerProperties.DuplicateReportIgnored | nano/node/telemetry.cpp:245-256 | a second report from the same endpoint in a round changes nothing |
| CoalescerProperties.RoundCompletesOnLastRemoval | nano/node/telemetry.cpp:278-287 | a flush starts exactly when the removed endpoint was the last awaited one |
| CoalescerProperties.LastReportFlushesRound | nano/node/telemetry.cpp:279-287 | the closing report caches the round's reports with the current time; the next pass gives every queued callback that uncached result and empties queue and reports; the flush then ends |
| CoalescerProperties.FailureProcessesEndpoint | nano/node/telemetry.cpp:309-328 | a send failure or a current-round timeout for an awaited endpoint clears all-received and processes the endpoint |
| CoalescerProperties.StaleTimeoutIgnored | nano/node/telemetry.cpp:324 | a timeout of an earlier round, or for an endpoint no longer awaited, changes nothing |
| CoalescerProperties.FailureClosesRound | nano/node/telemetry.cpp:275-288 | a send failure or current-round timeout for the last awaited endpoint caches the reports received so far at the current time, and the next pass hands every queued callback those reports, uncached and flagged not all received |
| CoalescerProperties.CompletedRoundTimeoutsAreStale | nano/node/telemetry.cpp:319-330 | once a round completed, its timeouts change nothing, neither before a new query nor after the query that starts the next round (a query being one atomic event) |
| CoalescerProperties.LateSendErrorClearsAllReceived | nano/node/telemetry.cpp:309-315 | a send failure for an endpoint no longer awaited still clears all-received and changes nothing else |
| CoalescerProperties.PartialFailure | nano/node/telemetry.cpp:208-330 | three peers, one failed send and two reports: the callback gets exactly the two reports with all-received false |
| Coordinator.Create | nano/node/telemetry.cpp:16-22 | a new coordinator runs, satisfies the invariant, has a freshly constructed batch coalescer, no per-peer coalescers and no answers |
| Coordinator.Stop | nano/node/telemetry.cpp:24-30 | after stop the coordinator is stopped with no per-peer coalescers, and no answer is added |
| Coordinator.Add | nano/node/telemetry.cpp:32-44 | while running, a report reaches the batch coalescer and every per-peer coalescer, keeping their keys and timestamps; after stop it is ignored |
| Coordinator.GetMetricsRandomPeers | nano/node/telemetry.cpp:46-62 | stopped or an empty sample answers at once with no data, not cached, not all received; otherwise the batch coalescer is queried with the sample |
| Coordinator.GetMetricsSinglePeer | nano/node/telemetry.cpp:121-160 | a refused query (stopped, no channel, or version below the minimum) answers with the error result; otherwise the peer's entry exists afterwards, is stamped now, has the callback queued, and other entries are untouched |
| Coordinator.OngoingCleanup | nano/node/telemetry.cpp:74-104 | only the alarm's own entry can be dropped, exactly when running, idle for longer than the cutoff and with no pending callback; every other entry is kept unchanged; nothing else changes |
| Coordinator.Translate | nano/node/telemetry.cpp:137-149 | a round with every report becomes a success carrying its one report; anything else is an error with default data; the cached flag passes through |
| Coordinator.ToAnswers | nano/node/telemetry.cpp:53-55 | a pass's deliveries become answers one for one, translated for a per-peer coalescer |
| Coordinator.Complete | nano/node/telemetry.cpp:224-330 | a completion for a coalescer the coordinator no longer holds (stopped, or per-peer entry erased) changes nothing; otherwise that coalescer takes the completion's step, the batch coalescer (for a per-peer target) and every other per-peer coalescer are unchanged, and the pass's deliveries are appended as answers |
| Coordinator.PassWellFormed | nano/node/telemetry.cpp:138-143 | every per-peer delivery with all-received carries exactly one report, so the translation's assertion holds |
| CoordinatorProperties.StepPreservesInv | nano/node/telemetry.cpp:24-160 | every coordinator event keeps all coalescers valid and every per-peer coalescer awaiting only its own peer |
| CoordinatorProperties.Run | nano/node/telemetry.cpp:24-160 | the invariant holds throughout any run and answers are only appended |
| CoordinatorProperties.StoppedCoordinatorAnswersAtOnce | nano/node/telemetry.cpp:35-158 | after stop, reports, completions (in the model, including the passes of a flush already running) and idle alarms change nothing; random-sample queries get the empty result and single-peer queries the error result, with no entry created |
| CoordinatorProperties.SingleQueryEntryRules | nano/node/telemetry.cpp:132-137 | a low-version peer is refused without an entry; a known peer keeps its coalescer, refreshed to now and queried; a new peer gets a fresh coalescer stamped now |
| CoordinatorProperties.IdleCleanupSparesActiveEntries | nano/node/telemetry.cpp:91-99 | no cleanup alarm, whichever entry it belongs to, drops or alters an entry with a pending callback or queried within the cutoff; that entry's own alarm changes nothing |
| CoordinatorProperties.SinglePeerAnswered | nano/node/telemetry.cpp:121-149 | a first single-peer query answered by its peer yields that report without error |
| CoordinatorProperties.SinglePeerTimedOut | nano/node/telemetry.cpp:145-148 | a first single-peer query whose peer times out yields the error result |
| Landing.Equal | rai/node/testing.cpp:286-289 | two stores compare equal exactly when all four fields are equal |
| Landing.Add64 | rai/node/testing.cpp:371-378 | `uint64_t` addition: the result is the true sum or the sum less 2^64, and it wrapped exactly when it falls below the first operand |
| Landing.Sub64 | rai/node/testing.cpp:373 | `uint64_t` subtraction: the result is the true difference or the difference plus 2^64, and it is at most the first operand exactly when no wrap occurred |
| Landing.Shr64 | rai/node/testing.cpp:373 | `a >> n` is `a` divided by 2^n, rounded down |
| Bits.Shl128 | rai/node/testing.cpp:325-353 | `uint128_t (1) << n` is 2^n for every shift below 128, so no bit is shifted out |
| Landing.NextAmountByElapsedTime | rai/node/testing.cpp:373 | a halving period lasts 2^25 seconds whatever the interval exponent: the amount sent next is that of the period the time since the start falls in |
| Landing.WrapIsModular | rai/node/testing.cpp:371-378 | the model's wrapped sum and difference of two `uint64_t` values are the true sum and difference modulo 2^64 |
| Landing.IntervalsPerPeriod | rai/node/testing.cpp:319 | a halving period has 2^(25 - exponent) intervals, at most 2^25 |
| Landing.DistributionAmount | rai/node/testing.cpp:315-360 | the amount is zero exactly from the eighth period on |
| Landing.DistributionAmountInPeriod | rai/node/testing.cpp:321-358 | every interval of period k pays 2^(127 - k - (25 - exponent)) for k up to 6, the sixth period's amount for k = 7, and nothing later |
| Landing.PeriodsHalve | rai/node/testing.cpp:323-346 | each of periods 1 to 6 pays half of the period before |
| Landing.SeventhPeriodRepeatsSixth | rai/node/testing.cpp:347-358 | period 7 pays as much as period 6, and period 8 pays nothing |
| Landing.DistributionAmountNonIncreasing | rai/node/testing.cpp:315-360 | a later interval never pays more |
| Landing.PeriodPaysPayout | rai/node/testing.cpp:319-353 | a whole period pays 2^(127 - k) for k up to 6 and 2^121 for period 7, whatever the exponent |
| Landing.ScheduleTotalIsSupply | rai/node/testing.cpp:321-358 | the whole schedule pays out exactly 2^128 |
| Landing.AdvanceWithoutWrap | rai/node/testing.cpp:378 | without wrap-around, k successful sends advance the last-paid time by k intervals |
| Landing.PlannedAmountsNonIncreasing | rai/node/testing.cpp:373 | while the last-paid time neither wraps nor precedes the start, each send of a catch-up pays no more than the one before |
| Landing.CatchUpLoop | rai/node/testing.cpp:371-385 | the loop ends with the planned transfers, each for an interval that had elapsed, all successful but possibly a failed last one; the store advanced by the successes; and, unless a send failed, the next interval not yet elapsed |
| Landing.DistributeOne | rai/node/testing.cpp:367-386 | the i-th transfer goes from source to destination for the scheduled amount of the i-th interval after the last-paid time; only the last send may fail; the last-paid time advances once per success; the loop stops at the first failure or at the first interval not yet elapsed; source, destination and start are kept |
| TestSystem.ProductFits256 | rai/node/testing.cpp:155 | the 256-bit product of the random number and the balance never wraps |
| TestSystem.GetRandomAmount | rai/node/testing.cpp:149-158 | the amount is the balance scaled by random / max(uint128), rounded down: never above the balance, zero for a zero draw, the whole balance for the largest draw |
| TestSystem.GetRandomAmountMonotone | rai/node/testing.cpp:155 | a larger random draw never gives a smaller amount |

## Left out

- Re-entry into the coordinator from a callback is not modelled; the model delivers every answer as its own atomic event. In the code the coordinator's non-recursive mutex is still held when callbacks run on two paths:
  - `telemetry::add` holds it (line 34) across `impl->add` (37, 41), whose closing report runs `channel_processed` → `flush_callbacks` (286) → the callbacks (271);
  - the immediate answers at lines 60, 153 and 158 run inside the lock scopes taken at lines 50 and 129.

  A callback on these paths that queries the coordinator again would re-lock the mutex and deadlock. Only re-entry into a coalescer from a callback its flush runs is safe (`CoalescerProperties.ReentrantQueryJoinsFlush`).
- Mutexes, lock ordering and threads: every handler runs as one atomic event, so races are not modelled. Two of them are visible in the code:
  - `get_metrics_async` fills the awaited set in one lock scope (`nano/node/telemetry.cpp:210-240`) and increments the round counter in another (293-297). A timeout armed in the previous round that fires in between passes the guard at line 324 and can close the new round with no reports.
  - `invoke_callbacks` reads `all_received` outside the lock (line 271), so one pass can hand different flags to different callbacks.
- CoalescerProperties.CompletedRoundTimeoutsAreStale: holds because a query is one atomic event in the model; it does not cover a timeout that fires between the two lock scopes of `get_metrics_async`.
- The `weak_ptr` lifetimes are not modelled. A completion for a coalescer the coordinator no longer holds is a no-op event in the model; a coalescer on its own never sees such an event.
- Coordinator.Complete: a flush already running when the coordinator stops, or when its per-peer entry is erased, is cut off in the model: its remaining passes are no-ops and its queued callbacks are never answered. In the code the handler that runs the flush holds a strong `this_l` (`nano/node/telemetry.cpp:225`, 307, 321), so the flush runs on through `invoke_callbacks` (258-273) and answers every queued callback.
- CoordinatorProperties.StoppedCoordinatorAnswersAtOnce: that completions after stop change nothing holds of the model only; in the code a flush running at stop still answers its queued callbacks, as the previous line explains.
- `network.random_set` and `size_sqrt`: the random sample is an input of the random-peer query.
- The network sends: a send either succeeds silently or produces the `SendError` completion.
- The blocking wrappers `get_metrics_random_peers` and `get_metrics_single_peer` (`nano/node/telemetry.cpp:64-72`, `162-170`): they only wait on a promise for the asynchronous result.
- `telemetry_data_size` and `collect_container_info` (diagnostics with no effect on behaviour).
- The header holding `cache_cutoff`, the protocol-version constant and the fields' initial values is not part of this model. The constants are parameters. `all_received` is assumed to start false, and `last_time` starts at the clock's epoch.
- Coalescer.Impl: the round counter is an unbounded `nat`. The source's `uint64_t` would only wrap after 2^64 rounds.
- Coalescer.GetMetrics: the debug assertion that the peer set is non-empty is a precondition.
- Coordinator.Stop: the batch coalescer is kept in the state but is never reached again. The source drops it.
- `landing_store` serialisation and parsing, `write_store`, `seconds_since_epoch`, `distribute_ongoing` and the rest of the test system (wallet, ledger, block generation) are not part of this model. The wallet's sends are an oracle, and the current time is a parameter.
- The log messages of `distribute_one` are not modelled.
- Landing.DistributeOne: requires `now + distribution_interval < 2^64`. Closer to 2^64 the wrapped `store.last + distribution_interval` can keep falling below `now`, and the loop may never end.
- Landing.CatchUpLoop: requires the same `now + distribution_interval < 2^64`, for the same reason; it is the loop of `distribute_one`.
- Landing.PlannedAmountsNonIncreasing: only stated while the last-paid time does not wrap and is not before the start.
- TestSystem.GetRandomAmount: the random draw and the balance lookup are inputs, and the `convert_to` narrowing is shown not to lose bits.

=== FILE: bits.dfy ===
/** Powers of two and the fixed-width unsigned ranges of the node's integers. */
module Bits {

  const U64_LIMIT: nat := 0x1_0000_0000_0000_0000
  const U128_LIMIT: nat := 0x1_0000_0000_0000_0000_0000_0000_0000_0000
  const U256_LIMIT: nat := U128_LIMIT * U128_LIMIT

  /** The largest `uint128_t`. */
  const U128_MAX: nat := U128_LIMIT - 1

  type U64 = x: nat | x < U64_LIMIT
  type U128 = x: nat | x < U128_LIMIT

  function Pow2(n: nat): (r: nat)
    ensures r >= 1
  {
    if n == 0 then 1 else 2 * Pow2(n - 1)
  }

  lemma {:induction false} Pow2Add(a: nat, b: nat)
    ensures Pow2(a + b) == Pow2(a) * Pow2(b)
    decreases b
  {
    if b > 0 {
      Pow2Add(a, b - 1);
      assert Pow2(a + b) == 2 * Pow2(a + b - 1);
    }
  }

  lemma {:induction false} Pow2Monotone(a: nat, b: nat)
    requires a <= b
    ensures Pow2(a) <= Pow2(b)
    decreases b
  {
    if a < b {
      Pow2Monotone(a, b - 1);
    }
  }

  lemma Pow2Of32()
    ensures Pow2(32) == 0x1_0000_0000
  {
    assert Pow2(8) == 256;
    Pow2Add(8, 8);
    Pow2Add(16, 16);
  }

  lemma Pow2Of25()
    ensures Pow2(25) == 0x200_0000
  {
    assert Pow2(8) == 256;
    Pow2Add(8, 8);
    Pow2Add(16, 8);
    assert Pow2(25) == 2 * Pow2(24);
  }

  lemma Pow2Of128()
    ensures Pow2(128) == U128_LIMIT
  {
    Pow2Of32();
    Pow2Add(32, 32);
    Pow2Add(64, 64);
  }

  /** `uint128_t (1) << n` for a shift that stays inside the 128 bits. */
  function Shl128(n: nat): (r: U128)
    requires n < 128
    ensures r == Pow2(n)
  {
    Pow2Monotone(n, 127);
    Pow2Of128();
    assert Pow2(128) == 2 * Pow2(127);
    Pow2(n)
  }

  /** Division rounding down, characterised by its bounds. */
  function FloorDiv(x: nat, p: nat): (q: nat)
    requires p > 0
    ensures p * q <= x < p * q + p
    ensures q <= x
  {
    assert x == p * (x / p) + x % p;
    MulMonotone(1, p, x / p);
    x / p
  }

  /** Multiplying both sides of `a <= b` by `c`. */
  lemma MulMonotone(a: nat, b: nat, c: nat)
    requires a <= b
    ensures a * c <= b * c
  {
  }

  /** Multiplying both sides of `a < b` by `p`, with the gap made explicit. */
  lemma MulOrder(a: nat, b: nat, p: nat)
    ensures a < b ==> p * a + p <= p * b
  {
    if a < b {
      MulMonotone(a + 1, b, p);
    }
  }

  lemma MulSucc(a: nat, c: nat)
    ensures (a + 1) * c == a * c + c
  {
  }

  /** Flooring by `a` and then by `b` is flooring by `a * b`: if `q` is `x`
      floored by `a` and `x` lies in the `k`-th block of `a * b`, then `q`
      lies in the `k`-th block of `b`. */
  lemma NestedFloor(x: nat, a: nat, b: nat, q: nat, k: nat)
    requires a > 0 && b > 0
    requires a * q <= x < a * q + a
    requires (a * b) * k <= x < (a * b) * k + a * b
    ensures b * k <= q < b * k + b
  {
    var m := b * k;
    assert a * m == (a * b) * k;
    assert a * (m + b) == (a * b) * k + a * b;
    MulOrder(q, m, a);
    MulOrder(m + b - 1, q, a);
    assert a * (m + b - 1) + a == a * (m + b);
  }

  /** For `x` in the `k`-th block of `p`, `x` lies below the `j`-th
      multiple of `p` exactly when `k` comes before `j`. */
  lemma BelowMultiple(x: nat, p: nat, k: nat, j: nat)
    requires p * k <= x < p * k + p
    ensures x < p * j <==> k < j
  {
    MulOrder(k, j, p);
    if j <= k {
      MulMonotone(j, k, p);
    }
  }
}

=== FILE: coalescer.dfy ===
/**
 The request coalescer (`telemetry_impl`): one cache of peer reports, one
 request round in flight at most, and a FIFO of callbacks waiting for a result.

 Every asynchronous completion of `telemetry_impl` (a report arriving, a send
 failing, a timeout alarm, the worker running a cache-hit flush, one pass of
 the flush loop) is an explicit event applied atomically; time is the explicit
 parameter `now`. Callbacks are identified by `CallbackId`, and every callback
 invocation is appended to `trace`.
 */
module Coalescer {
  import opened TelemetryTypes

  datatype Impl = Impl(
    callbacks: seq<CallbackId>,    // pending result continuations, FIFO
    invoking: bool,                // a flush loop is in progress
    flushCached: bool,             // the is_cached argument of that flush
    workerPending: bool,           // a cache-hit flush is posted to the worker
    required: set<Endpoint>,       // endpoints awaited in the current round
    current: seq<TelemetryData>,   // reports received in the current round
    cached: seq<TelemetryData>,    // reports of the last completed round
    lastTime: nat,                 // when the last round completed
    allReceived: bool,             // no send failure or timeout in the round
    round: nat,                    // number of rounds started
    trace: seq<Delivery>)          // every callback invocation, in order

  /** A freshly constructed coalescer. `last_time` is the clock's epoch. */
  function Initial(): (s: Impl)
    ensures Valid(s)
    ensures !Busy(s) && s.trace == []
    ensures s.cached == [] && s.current == [] && s.required == {} && !s.workerPending
    ensures s.round == 0 && !s.allReceived && s.lastTime == 0
  {
    Impl([], false, false, false, {}, [], [], 0, false, 0, [])
  }

  /** The invariant of every reachable state. */
  predicate Valid(s: Impl) {
    // a flush only runs once no round is in flight
    && (s.invoking ==> s.required == {} && !s.workerPending)
    // a cache-hit flush is posted only for a queued callback, with no round in flight
    && (s.workerPending ==> s.required == {} && s.callbacks != [])
    // a round is only in flight on behalf of some queued callback
    && (s.required != {} ==> s.callbacks != [])
    // a queued callback is always served by something: a round, the worker or a flush
    && (!s.invoking && !s.workerPending && s.callbacks != [] ==> s.required != {})
    // reports only accumulate while a round is in flight or being flushed
    && (!s.invoking && s.required == {} ==> s.current == [])
    // a flush clears the round's reports with its first pass
    && (s.invoking && s.callbacks == [] ==> s.current == [])
  }

  /** A query arriving now would only be queued. */
  predicate Busy(s: Impl) {
    s.callbacks != [] || s.invoking
  }

  predicate CacheFresh(s: Impl, now: nat, cutoff: nat) {
    now < s.lastTime + cutoff
  }

  /** `get_metrics_async` (with the round-counter part of `fire_request_messages`):
      queue the callback; the first callback either posts a cache-hit flush to
      the worker or starts a round over `peers`. Sends and timeout alarms are
      the `SendError` / `TimedOut` completions below. */
  function GetMetrics(s: Impl, peers: set<Endpoint>, cb: CallbackId, now: nat, cutoff: nat): (t: Impl)
    requires peers != {}
    ensures t.callbacks == s.callbacks + [cb]
    ensures t.trace == s.trace
    ensures t.cached == s.cached && t.lastTime == s.lastTime && t.current == s.current
    ensures t.round == s.round || (!Busy(s) && t.round == s.round + 1)
  {
    var queued := s.(callbacks := s.callbacks + [cb]);
    if |queued.callbacks| > 1 || s.invoking then
      queued
    else if now < s.lastTime + cutoff then
      queued.(workerPending := true)
    else
      queued.(allReceived := true, required := s.required + peers, round := s.round + 1)
  }

  /** The result every callback of a flush pass receives. */
  function FlushResult(s: Impl): Responses {
    Responses(s.cached, s.flushCached, s.allReceived)
  }

  /** The deliveries the next flush pass makes. */
  function Delivered(s: Impl): seq<Delivery> {
    if s.invoking && s.callbacks != [] then DeliverAll(s.callbacks, FlushResult(s)) else []
  }

  /** One pass of the flush loop (`invoke_callbacks`): take the whole queue,
      clear it and the current reports, and invoke each taken callback once. */
  function InvokeCallbacks(s: Impl): (t: Impl)
    ensures t.trace == s.trace + Delivered(s)
    ensures Invoked(t.trace) + t.callbacks == Invoked(s.trace) + s.callbacks
    ensures s.invoking ==> t.callbacks == []
    ensures t.required == s.required && t.round == s.round && t.cached == s.cached
    ensures t.invoking == s.invoking && t.allReceived == s.allReceived
    ensures t.workerPending == s.workerPending && t.lastTime == s.lastTime
    ensures !(s.invoking && s.callbacks != []) ==> t == s
    ensures s.invoking && s.callbacks != [] ==> t.current == [] && t.flushCached == s.flushCached
  {
    InvokedAppend(s.trace, Delivered(s));
    if s.invoking && s.callbacks != [] then
      InvokedDeliverAll(s.callbacks, FlushResult(s));
      s.(callbacks := [], current := [], trace := s.trace + Delivered(s))
    else
      s
  }

  /** The loop test of `flush_callbacks`: the flush ends once the queue is empty. */
  function FlushCheck(s: Impl): (t: Impl)
    ensures t.invoking <==> s.invoking && s.callbacks != []
    ensures t == s.(invoking := t.invoking)
  {
    if s.invoking && s.callbacks == [] then s.(invoking := false) else s
  }

  /** Entry to `flush_callbacks` with `cached`, up to the first loop test. */
  function BeginFlush(s: Impl, cached: bool): (t: Impl)
    ensures t.invoking <==> s.callbacks != []
    ensures t.flushCached == cached
    ensures t == s.(invoking := s.callbacks != [], flushCached := cached)
  {
    FlushCheck(s.(invoking := true, flushCached := cached))
  }

  /** `channel_processed`: stop awaiting `ep`; the removal that empties the
      awaited set completes the round, commits its reports to the cache and
      starts an uncached flush. */
  function ChannelProcessed(s: Impl, ep: Endpoint, now: nat): (t: Impl)
    ensures t.required == s.required - {ep}
    ensures t.round == s.round && t.allReceived == s.allReceived && t.trace == s.trace
    ensures t.callbacks == s.callbacks
    ensures ep in s.required && s.required == {ep} ==>
      && t.cached == s.current && t.lastTime == now && !t.flushCached
      && (t.invoking <==> s.callbacks != [])
    ensures !(ep in s.required && s.required == {ep}) ==> t == s.(required := s.required - {ep})
  {
    var t := s.(required := s.required - {ep});
    if ep in s.required && t.required == {} then
      BeginFlush(t.(cached := s.current, lastTime := now), false)
    else
      t
  }

  /** `add`: a report from a peer. */
  function Add(s: Impl, data: TelemetryData, ep: Endpoint, now: nat): (t: Impl)
    ensures ep !in t.required
    ensures t.round == s.round && t.allReceived == s.allReceived && t.trace == s.trace
    ensures ep in s.required && s.required != {ep} ==>
      t == s.(current := s.current + [data], required := s.required - {ep})
    ensures ep in s.required && s.required == {ep} ==>
      t.cached == s.current + [data] && t.lastTime == now && t.callbacks == s.callbacks
  {
    if ep !in s.required then
      s
    else
      ChannelProcessed(s.(current := s.current + [data]), ep, now)
  }

  /** The completion handler of a telemetry request send that reported an error. */
  function OnSendError(s: Impl, ep: Endpoint, now: nat): (t: Impl)
    ensures !t.allReceived && ep !in t.required
    ensures t.round == s.round && t.trace == s.trace && t.callbacks == s.callbacks
  {
    ChannelProcessed(s.(allReceived := false), ep, now)
  }

  /** The timeout alarm armed for `ep` when round `armedRound` started. */
  function OnTimeout(s: Impl, ep: Endpoint, armedRound: nat, now: nat): (t: Impl)
    ensures s.round == armedRound ==> ep !in t.required
    ensures t.round == s.round && t.trace == s.trace && t.callbacks == s.callbacks
  {
    if s.round == armedRound && ep in s.required then
      ChannelProcessed(s.(allReceived := false), ep, now)
    else
      s
  }

  /** The worker task posted on a cache hit: a cached flush. */
  function RunCacheFlush(s: Impl): (t: Impl)
    ensures !t.workerPending
    ensures !s.workerPending ==> t == s
    ensures s.workerPending ==>
      && (t.invoking <==> s.callbacks != []) && t.flushCached
      && t.callbacks == s.callbacks && t.trace == s.trace && t.cached == s.cached
    ensures s.workerPending ==>
      t == s.(workerPending := false, invoking := s.callbacks != [], flushCached := true)
  {
    if s.workerPending then BeginFlush(s.(workerPending := false), true) else s
  }

  /** The asynchronous completions that reach a coalescer. */
  datatype Completion =
    | SendError(to: Endpoint)
    | TimedOut(peer: Endpoint, armedRound: nat)
    | WorkerTask
    | Invoke
    | Recheck

  datatype Event =
    | Query(peers: set<Endpoint>, cb: CallbackId)
    | Reported(data: TelemetryData, from: Endpoint)
    | Async(c: Completion)

  /** A query always names at least one peer. */
  predicate Admissible(e: Event) {
    e.Query? ==> e.peers != {}
  }

  function Complete(s: Impl, c: Completion, now: nat): Impl {
    match c
    case SendError(ep) => OnSendError(s, ep, now)
    case TimedOut(ep, r) => OnTimeout(s, ep, r, now)
    case WorkerTask => RunCacheFlush(s)
    case Invoke => InvokeCallbacks(s)
    case Recheck => FlushCheck(s)
  }

  function Step(s: Impl, e: Event, now: nat, cutoff: nat): Impl
    requires Admissible(e)
  {
    match e
    case Query(peers, cb) => GetMetrics(s, peers, cb, now, cutoff)
    case Reported(d, ep) => Add(s, d, ep, now)
    case Async(c) => Complete(s, c, now)
  }

  datatype Timed = Timed(e: Event, now: nat)

  /** The callbacks registered by the queries of `es`, in order. */
  function Queried(es: seq<Timed>): seq<CallbackId> {
    if es == [] then []
    else (if es[0].e.Query? then [es[0].e.cb] else []) + Queried(es[1..])
  }

  function Run(s: Impl, es: seq<Timed>, cutoff: nat): Impl
    requires forall i :: 0 <= i < |es| ==> Admissible(es[i].e)
    decreases |es|
  {
    if es == [] then s else Run(Step(s, es[0].e, es[0].now, cutoff), es[1..], cutoff)
  }
}

=== FILE: coalescer_properties.dfy ===
/**
 Properties of the request coalescer: the state invariant, conservation of
 callbacks (each queued callback is invoked exactly once, in FIFO order),
 coalescing, the cache window, round completion and the timeout guard.
 */
module CoalescerProperties {
  import opened TelemetryTypes
  import opened Coalescer

  // ---------------------------------------------------------------------------
  // The invariant

  lemma StepPreservesValid(s: Impl, e: Event, now: nat, cutoff: nat)
    requires Valid(s) && Admissible(e)
    ensures Valid(Step(s, e, now, cutoff))
  {
    match e
    case Query(peers, cb) =>
    case Reported(d, ep) =>
    case Async(c) =>
  }

  lemma {:induction false} RunPreservesValid(s: Impl, es: seq<Timed>, cutoff: nat)
    requires Valid(s)
    requires forall i :: 0 <= i < |es| ==> Admissible(es[i].e)
    ensures Valid(Run(s, es, cutoff))
    decreases |es|
  {
    if es != [] {
      StepPreservesValid(s, es[0].e, es[0].now, cutoff);
      RunPreservesValid(Step(s, es[0].e, es[0].now, cutoff), es[1..], cutoff);
    }
  }

  // ---------------------------------------------------------------------------
  // No callback is lost or invoked twice

  /** Each step either queues one callback or moves callbacks from the front of
      the queue to the trace, in order. */
  lemma StepConservesCallbacks(s: Impl, e: Event, now: nat, cutoff: nat)
    requires Admissible(e)
    ensures var t := Step(s, e, now, cutoff);
      Invoked(t.trace) + t.callbacks
        == Invoked(s.trace) + s.callbacks + (if e.Query? then [e.cb] else [])
  {
    match e
    case Query(peers, cb) =>
      var t := GetMetrics(s, peers, cb, now, cutoff);
      assert t.trace == s.trace && t.callbacks == s.callbacks + [cb];
    case Reported(d, ep) =>
      var t := Add(s, d, ep, now);
      assert t.trace == s.trace && t.callbacks == s.callbacks;
    case Async(c) =>
      match c
      case SendError(ep) =>
        var t := OnSendError(s, ep, now);
        assert t.trace == s.trace && t.callbacks == s.callbacks;
      case TimedOut(ep, r) =>
      case WorkerTask =>
        var t := RunCacheFlush(s);
        assert t.trace == s.trace && t.callbacks == s.callbacks;
      case Invoke =>
      case Recheck =>
  }

  /** Over any run: the callbacks invoked so far followed by those still queued
      are exactly the callbacks registered, in registration order. So every
      callback is invoked at most once, in FIFO order, and one not yet invoked
      is still queued. */
  lemma {:induction false} RunConservesCallbacks(s: Impl, es: seq<Timed>, cutoff: nat)
    requires forall i :: 0 <= i < |es| ==> Admissible(es[i].e)
    ensures var t := Run(s, es, cutoff);
      Invoked(t.trace) + t.callbacks == Invoked(s.trace) + s.callbacks + Queried(es)
    decreases |es|
  {
    if es != [] {
      var s' := Step(s, es[0].e, es[0].now, cutoff);
      StepConservesCallbacks(s, es[0].e, es[0].now, cutoff);
      RunConservesCallbacks(s', es[1..], cutoff);
      var extra := if es[0].e.Query? then [es[0].e.cb] else [];
      assert Queried(es) == extra + Queried(es[1..]);
    }
  }

  /** Over any run the trace is only extended: no invocation, once recorded,
      is undone or rewritten. */
  lemma {:induction false} RunExtendsTrace(s: Impl, es: seq<Timed>, cutoff: nat)
    requires forall i :: 0 <= i < |es| ==> Admissible(es[i].e)
    ensures var t := Run(s, es, cutoff);
      |s.trace| <= |t.trace| && t.trace[..|s.trace|] == s.trace
    decreases |es|
  {
    if es != [] {
      var s' := Step(s, es[0].e, es[0].now, cutoff);
      RunExtendsTrace(s', es[1..], cutoff);
      var t := Run(s, es, cutoff);
      assert s'.trace[..|s.trace|] == s.trace;
      assert t.trace[..|s'.trace|][..|s.trace|] == t.trace[..|s.trace|];
    }
  }

  // ---------------------------------------------------------------------------
  // Queries: coalescing, cache hits and round starts

  /** A query finding a queued callback or a flush in progress is only queued:
      no round starts, and the awaited set, round counter and cache are left
      alone. */
  lemma BusyQueryOnlyQueues(s: Impl, peers: set<Endpoint>, cb: CallbackId, now: nat, cutoff: nat)
    requires peers != {} && Busy(s)
    ensures GetMetrics(s, peers, cb, now, cutoff) == s.(callbacks := s.callbacks + [cb])
  {
  }

  /** A first query inside the cache window starts no round; the worker's
      flush then hands every queued callback the cached reports, marked
      cached, with the all-received flag left over from the last round. */
  lemma FreshCacheServesCachedResult(s: Impl, peers: set<Endpoint>, cb: CallbackId, now: nat, cutoff: nat)
    requires Valid(s) && peers != {} && !Busy(s) && CacheFresh(s, now, cutoff)
    ensures var t := GetMetrics(s, peers, cb, now, cutoff);
      && t.round == s.round && t.required == {} && t.workerPending
      && var u := InvokeCallbacks(RunCacheFlush(t));
      && u.trace == s.trace + [Delivery(cb, Responses(s.cached, true, s.allReceived))]
      && u.round == s.round && u.cached == s.cached
      && var v := FlushCheck(u);
      && v.callbacks == [] && !v.invoking && Valid(v)
  {
    var t := GetMetrics(s, peers, cb, now, cutoff);
    var w := RunCacheFlush(t);
    assert w.invoking && w.callbacks == [cb];
    assert Delivered(w) == [Delivery(cb, Responses(s.cached, true, s.allReceived))];
  }

  /** A cache hit leaves the coalescer as it found it, apart from the one
      delivery and the flush flag: the cache, its time, the round and the
      all-received flag are kept, so a later query inside the same window is
      again a cache hit. */
  lemma CacheHitKeepsWindow(s: Impl, peers: set<Endpoint>, cb: CallbackId, now: nat, later: nat, cutoff: nat)
    requires Valid(s) && peers != {} && !Busy(s) && CacheFresh(s, now, cutoff)
    ensures var v := FlushCheck(InvokeCallbacks(RunCacheFlush(GetMetrics(s, peers, cb, now, cutoff))));
      && v == s.(trace := s.trace + [Delivery(cb, Responses(s.cached, true, s.allReceived))], flushCached := true)
      && !Busy(v) && (CacheFresh(v, later, cutoff) <==> CacheFresh(s, later, cutoff))
  {
    FreshCacheServesCachedResult(s, peers, cb, now, cutoff);
  }

  /** A first query outside the cache window starts a round: all-received is
      reset, the awaited set was empty and becomes exactly the queried peers,
      and the round counter grows by one. */
  lemma StaleCacheStartsRound(s: Impl, peers: set<Endpoint>, cb: CallbackId, now: nat, cutoff: nat)
    requires Valid(s) && peers != {} && !Busy(s) && !CacheFresh(s, now, cutoff)
    ensures s.required == {}
    ensures var t := GetMetrics(s, peers, cb, now, cutoff);
      && t.required == peers && t.round == s.round + 1 && t.allReceived
      && t.callbacks == [cb] && !t.workerPending && t.cached == s.cached
      && Valid(t)
  {
  }

  /** `cbs` queried one after another with the same peers at the same time. */
  function QueryAll(s: Impl, peers: set<Endpoint>, cbs: seq<CallbackId>, now: nat, cutoff: nat): Impl
    requires peers != {}
    decreases |cbs|
  {
    if cbs == [] then s else QueryAll(GetMetrics(s, peers, cbs[0], now, cutoff), peers, cbs[1..], now, cutoff)
  }

  /** Any number of queries collapse onto at most one new round. */
  lemma {:induction false} QueriesCoalesce(s: Impl, peers: set<Endpoint>, cbs: seq<CallbackId>, now: nat, cutoff: nat)
    requires Valid(s) && peers != {}
    ensures var t := QueryAll(s, peers, cbs, now, cutoff);
      && Valid(t)
      && t.callbacks == s.callbacks + cbs
      && t.trace == s.trace && t.cached == s.cached
      && (t.round == s.round || (!Busy(s) && cbs != [] && t.round == s.round + 1))
      && (Busy(s) ==> t.required == s.required && t.allReceived == s.allReceived && t.current == s.current)
    decreases |cbs|
  {
    if cbs != [] {
      var s' := GetMetrics(s, peers, cbs[0], now, cutoff);
      StepPreservesValid(s, Query(peers, cbs[0]), now, cutoff);
      QueriesCoalesce(s', peers, cbs[1..], now, cutoff);
      assert Busy(s');
      assert s.callbacks + cbs == s.callbacks + [cbs[0]] + cbs[1..];
    }
  }

  /** Coalescing, end to end: callers that all query one peer before its
      report arrives share one round, and the report's flush hands each of
      them, in order, the same fresh result. */
  lemma CoalescedCallersShareOneRound(s: Impl, p: Endpoint, cbs: seq<CallbackId>, d: TelemetryData, t0: nat, t1: nat, cutoff: nat)
    requires Valid(s) && !Busy(s) && !CacheFresh(s, t0, cutoff) && cbs != []
    ensures var q := QueryAll(s, {p}, cbs, t0, cutoff);
      && q.round == s.round + 1 && q.required == {p}
      && var u := InvokeCallbacks(Add(q, d, p, t1));
      && u.trace == s.trace + DeliverAll(cbs, Responses([d], false, true))
      && u.cached == [d] && u.lastTime == t1
  {
    var q1 := GetMetrics(s, {p}, cbs[0], t0, cutoff);
    StaleCacheStartsRound(s, {p}, cbs[0], t0, cutoff);
    assert q1.required == {p} && q1.allReceived && q1.round == s.round + 1;
    assert q1.current == [] && q1.trace == s.trace && Busy(q1);
    QueriesCoalesce(q1, {p}, cbs[1..], t0, cutoff);
    var q := QueryAll(s, {p}, cbs, t0, cutoff);
    assert q == QueryAll(q1, {p}, cbs[1..], t0, cutoff);
    assert q.callbacks == cbs by {
      assert q.callbacks == [cbs[0]] + cbs[1..];
    }
    assert q.required == {p} && q.allReceived && q.current == [] && q.trace == s.trace;
    var r := Add(q, d, p, t1);
    assert r.invoking && r.cached == [d] && r.callbacks == cbs && r.allReceived && !r.flushCached;
    assert FlushResult(r) == Responses([d], false, true);
  }

  /** A query made inside a flush (for instance by an invoked callback) is
      served by the same flush, with the same result, in its next pass. */
  lemma ReentrantQueryJoinsFlush(s: Impl, peers: set<Endpoint>, cb: CallbackId, now: nat, cutoff: nat)
    requires Valid(s) && s.invoking && peers != {}
    ensures var t := GetMetrics(InvokeCallbacks(s), peers, cb, now, cutoff);
      && t.callbacks == [cb] && FlushCheck(t) == t
      && InvokeCallbacks(t).trace == s.trace + Delivered(s) + [Delivery(cb, FlushResult(s))]
      && FlushCheck(InvokeCallbacks(t)).invoking == false
  {
    var t := GetMetrics(InvokeCallbacks(s), peers, cb, now, cutoff);
    assert Delivered(t) == [Delivery(cb, FlushResult(s))];
  }

  // ---------------------------------------------------------------------------
  // Reports and round completion

  /** A report from an endpoint that is not awaited changes nothing. */
  lemma UnrequestedReportIgnored(s: Impl, d: TelemetryData, ep: Endpoint, now: nat)
    requires ep !in s.required
    ensures Add(s, d, ep, now) == s
  {
  }

  /** A second report from the same endpoint in one round is dropped, so each
      endpoint contributes at most one report per round. */
  lemma DuplicateReportIgnored(s: Impl, d1: TelemetryData, d2: TelemetryData, ep: Endpoint, t1: nat, t2: nat)
    ensures var t := Add(s, d1, ep, t1);
      Add(t, d2, ep, t2) == t
  {
  }

  /** `channel_processed` completes the round (and starts a flush) exactly
      when it removes the last awaited endpoint. */
  lemma RoundCompletesOnLastRemoval(s: Impl, ep: Endpoint, now: nat)
    requires Valid(s)
    ensures var t := ChannelProcessed(s, ep, now);
      (t.invoking && !s.invoking) <==> (ep in s.required && s.required == {ep})
  {
    if ep in s.required {
      assert !s.invoking;
    }
  }

  /** The report that closes a round commits the round's reports to the cache
      at the current time; the following pass invokes every queued callback
      exactly once with that uncached result and leaves the queue and the
      round's reports empty; the loop test then ends the flush. */
  lemma LastReportFlushesRound(s: Impl, d: TelemetryData, ep: Endpoint, now: nat)
    requires Valid(s) && s.required == {ep}
    ensures var t := Add(s, d, ep, now);
      && t.cached == s.current + [d] && t.lastTime == now && t.invoking
      && var u := InvokeCallbacks(t);
      && u.trace == s.trace + DeliverAll(s.callbacks, Responses(s.current + [d], false, s.allReceived))
      && u.callbacks == [] && u.current == []
      && !FlushCheck(u).invoking && Valid(FlushCheck(u))
  {
  }

  /** A send failure, or a timeout of the current round for a still-awaited
      endpoint, clears all-received and processes that endpoint. */
  lemma FailureProcessesEndpoint(s: Impl, ep: Endpoint, now: nat)
    requires ep in s.required
    ensures OnSendError(s, ep, now) == ChannelProcessed(s.(allReceived := false), ep, now)
    ensures OnTimeout(s, ep, s.round, now) == ChannelProcessed(s.(allReceived := false), ep, now)
    ensures !OnTimeout(s, ep, s.round, now).allReceived
  {
  }

  /** A send failure or a current-round timeout for the last awaited endpoint
      closes the round: the reports received so far become the cache at the
      current time, and the following pass hands every queued callback those
      reports, uncached and flagged as not all received. */
  lemma FailureClosesRound(s: Impl, ep: Endpoint, timeout: bool, now: nat)
    requires Valid(s) && s.required == {ep}
    ensures var t := if timeout then OnTimeout(s, ep, s.round, now) else OnSendError(s, ep, now);
      && t.cached == s.current && t.lastTime == now && t.invoking
      && FlushResult(t) == Responses(s.current, false, false)
      && InvokeCallbacks(t).trace == s.trace + DeliverAll(s.callbacks, Responses(s.current, false, false))
  {
  }

  /** A timeout armed in an earlier round, or for an endpoint already
      processed, has no effect at all. */
  lemma StaleTimeoutIgnored(s: Impl, ep: Endpoint, armedRound: nat, now: nat)
    requires armedRound != s.round || ep !in s.required
    ensures OnTimeout(s, ep, armedRound, now) == s
  {
  }

  /** Once a round has completed, none of its timeouts can touch the next
      round: the counter has moved on by the time another round is awaited. */
  lemma CompletedRoundTimeoutsAreStale(s: Impl, peers: set<Endpoint>, cb: CallbackId, ep: Endpoint, now: nat, later: nat, cutoff: nat)
    requires Valid(s) && peers != {} && !Busy(s) && !CacheFresh(s, now, cutoff)
    ensures OnTimeout(s, ep, s.round, later) == s
    ensures var t := GetMetrics(s, peers, cb, now, cutoff);
      OnTimeout(t, ep, s.round, later) == t
  {
  }

  /** Unlike a timeout, a send failure carries no round guard: one for an
      endpoint no longer awaited still clears all-received, which then shows in
      the next cache hit or in the round in flight. */
  lemma LateSendErrorClearsAllReceived(s: Impl, ep: Endpoint, now: nat)
    requires ep !in s.required
    ensures OnSendError(s, ep, now) == s.(allReceived := false)
  {
  }

  /** Three peers, one failed send and two reports: the callback receives
      exactly the two reports, flagged as not all received. */
  lemma PartialFailure(a: Endpoint, b: Endpoint, c: Endpoint, da: TelemetryData, db: TelemetryData,
                       cb: CallbackId, now: nat, cutoff: nat)
    requires a != b && b != c && a != c && cutoff <= now
    ensures var s1 := GetMetrics(Initial(), {a, b, c}, cb, now, cutoff);
      var s2 := Add(Add(OnSendError(s1, a, now), da, b, now), db, c, now);
      InvokeCallbacks(s2).trace == [Delivery(cb, Responses([da, db], false, false))]
  {
    var s1 := GetMetrics(Initial(), {a, b, c}, cb, now, cutoff);
    assert s1.required == {a, b, c};
    var f := OnSendError(s1, a, now);
    assert f.required == {b, c} && f.current == [];
    var r1 := Add(f, da, b, now);
    assert r1.required == {c} && r1.current == [da];
    var r2 := Add(r1, db, c, now);
    assert r2.invoking && r2.cached == [da, db] && r2.callbacks == [cb];
  }
}

=== FILE: coordinator.dfy ===
/**
 The telemetry coordinator (`telemetry`): one coalescer for queries over a
 random sample of peers, one coalescer per peer queried on its own (each with
 the time it was last queried), report routing, translation of single-peer
 results, idle cleanup of per-peer coalescers, and shutdown.

 Peer sampling and the channel's protocol version are inputs. An alarm or
 task whose coalescer no longer exists does nothing; such events are no-ops.
 */
module Coordinator {
  import opened TelemetryTypes
  import Coalescer

  /** `cache_cutoff` and `telemetry_protocol_version_min`, both compile-time
      constants of the node. */
  datatype Config = Config(cutoff: nat, minVersion: nat)

  /** An entry of `single_requests`. */
  datatype SingleRequest = SingleRequest(impl: Coalescer.Impl, lastUpdated: nat)

  /** Which coalescer an asynchronous completion belongs to. */
  datatype Target = Batch | Single(ep: Endpoint)

  /** One invocation of a caller's callback. */
  datatype Answer =
    | BatchAnswer(cb: CallbackId, responses: Responses)
    | SingleAnswer(cb: CallbackId, response: Response)

  datatype Telemetry = Telemetry(
    stopped: bool,
    batch: Coalescer.Impl,
    singles: map<Endpoint, SingleRequest>,
    answers: seq<Answer>)

  const ErrorResponse: Response := Response(DefaultData, false, true)

  /** The shape a per-peer coalescer keeps: it only ever awaits its own peer,
      its round's reports are collected from nothing, and a completed round
      that received everything cached exactly one report. */
  predicate SingleShaped(s: Coalescer.Impl, ep: Endpoint) {
    && s.required <= {ep}
    && (s.required != {} ==> s.current == [])
    && (s.required == {} && s.allReceived ==> |s.cached| == 1)
  }

  predicate Inv(c: Telemetry) {
    && Coalescer.Valid(c.batch)
    && forall ep :: ep in c.singles ==>
         Coalescer.Valid(c.singles[ep].impl) && SingleShaped(c.singles[ep].impl, ep)
  }

  function Create(): (c: Telemetry)
    ensures Inv(c) && !c.stopped && c.singles == map[] && c.answers == []
    ensures c.batch == Coalescer.Initial()
  {
    Telemetry(false, Coalescer.Initial(), map[], [])
  }

  /** `stop`: no further queries or reports are accepted and every per-peer
      coalescer is dropped. The batch coalescer is never reached again. */
  function Stop(c: Telemetry): (d: Telemetry)
    ensures d.stopped && d.singles == map[]
    ensures d.answers == c.answers
  {
    c.(stopped := true, singles := map[])
  }

  /** `add`: a report is handed to the batch coalescer and to every per-peer
      coalescer, each of which keeps it only if it awaits `from`. */
  function Add(c: Telemetry, data: TelemetryData, from: Endpoint, now: nat): (d: Telemetry)
    ensures c.stopped ==> d == c
    ensures d.stopped == c.stopped && d.answers == c.answers
    ensures d.singles.Keys == c.singles.Keys
    ensures !c.stopped ==> d.batch == Coalescer.Add(c.batch, data, from, now)
    ensures forall ep :: ep in d.singles ==>
      && d.singles[ep].lastUpdated == c.singles[ep].lastUpdated
      && d.singles[ep].impl == (if c.stopped then c.singles[ep].impl
                                else Coalescer.Add(c.singles[ep].impl, data, from, now))
  {
    if c.stopped then
      c
    else
      c.(batch := Coalescer.Add(c.batch, data, from, now),
         singles := map ep | ep in c.singles ::
           c.singles[ep].(impl := Coalescer.Add(c.singles[ep].impl, data, from, now)))
  }

  /** `get_metrics_random_peers_async`, given the peer sample drawn for it. */
  function GetMetricsRandomPeers(c: Telemetry, sample: set<Endpoint>, cb: CallbackId, now: nat, cfg: Config): (d: Telemetry)
    ensures c.stopped || sample == {} ==>
      d == c.(answers := c.answers + [BatchAnswer(cb, Responses([], false, false))])
    ensures !c.stopped && sample != {} ==>
      && d.answers == c.answers && d.singles == c.singles
      && d.batch == Coalescer.GetMetrics(c.batch, sample, cb, now, cfg.cutoff)
  {
    if !c.stopped && sample != {} then
      c.(batch := Coalescer.GetMetrics(c.batch, sample, cb, now, cfg.cutoff))
    else
      c.(answers := c.answers + [BatchAnswer(cb, Responses([], false, false))])
  }

  /** Whether a single-peer query is passed on to a coalescer. */
  predicate Accepts(c: Telemetry, channel: Option<Channel>, cfg: Config) {
    !c.stopped && channel.Some? && channel.value.version >= cfg.minVersion
  }

  /** `get_metrics_single_peer_async` with `update_cleanup_data`: look up or
      create the peer's entry, stamp it with the current time and query its
      coalescer with that one peer. A new entry's cleanup alarm is the
      `IdleCheck` event. */
  function GetMetricsSinglePeer(c: Telemetry, channel: Option<Channel>, cb: CallbackId, now: nat, cfg: Config): (d: Telemetry)
    ensures !Accepts(c, channel, cfg) ==>
      d == c.(answers := c.answers + [SingleAnswer(cb, ErrorResponse)])
    ensures Accepts(c, channel, cfg) ==>
      var ep := channel.value.endpoint;
      && d.singles.Keys == c.singles.Keys + {ep}
      && d.singles[ep].lastUpdated == now
      && d.singles[ep].impl.callbacks
           == (if ep in c.singles then c.singles[ep].impl.callbacks else []) + [cb]
      && (forall other :: other in c.singles && other != ep ==> d.singles[other] == c.singles[other])
      && d.batch == c.batch && d.answers == c.answers && !d.stopped
  {
    if Accepts(c, channel, cfg) then
      var ep := channel.value.endpoint;
      var entry :=
        if ep in c.singles then c.singles[ep].(lastUpdated := now)
        else SingleRequest(Coalescer.Initial(), now);
      var impl := Coalescer.GetMetrics(entry.impl, {ep}, cb, now, cfg.cutoff);
      c.(singles := c.singles[ep := entry.(impl := impl)])
    else
      c.(answers := c.answers + [SingleAnswer(cb, ErrorResponse)])
  }

  /** The alarm of `ongoing_single_request_cleanup` for `ep`: drop the entry
      once it has been idle for longer than the cutoff and its coalescer has
      no pending callback; otherwise the alarm is re-armed. */
  function OngoingCleanup(c: Telemetry, ep: Endpoint, now: nat, cfg: Config): (d: Telemetry)
    ensures d.singles.Keys <= c.singles.Keys
    ensures forall other :: other in c.singles && other != ep ==> other in d.singles
    ensures forall other :: other in d.singles ==> d.singles[other] == c.singles[other]
    ensures (ep in c.singles && ep !in d.singles) <==>
      && !c.stopped && ep in c.singles
      && now - cfg.cutoff > c.singles[ep].lastUpdated
      && c.singles[ep].impl.callbacks == []
    ensures d.batch == c.batch && d.answers == c.answers && d.stopped == c.stopped
  {
    if c.stopped || ep !in c.singles then
      c
    else if now - cfg.cutoff > c.singles[ep].lastUpdated && c.singles[ep].impl.callbacks == [] then
      c.(singles := c.singles - {ep})
    else
      c
  }

  /** The callback wrapper of a single-peer query: a round that heard from its
      peer yields that peer's one report; anything else is an error. */
  function Translate(r: Responses): (resp: Response)
    requires r.allReceived ==> |r.data| == 1
    ensures resp.isCached == r.isCached
    ensures resp.error <==> !r.allReceived
    ensures resp.error ==> resp.data == DefaultData
    ensures !resp.error ==> r.data == [resp.data]
  {
    var error := !r.allReceived;
    if !error then Response(r.data[0], r.isCached, error)
    else Response(DefaultData, r.isCached, error)
  }

  /** What the callers see of a pass's deliveries. */
  function ToAnswers(target: Target, ds: seq<Delivery>): (rs: seq<Answer>)
    requires target.Single? ==> forall i :: 0 <= i < |ds| ==>
      (ds[i].result.allReceived ==> |ds[i].result.data| == 1)
    ensures |rs| == |ds|
    ensures forall i :: 0 <= i < |ds| ==> rs[i].cb == ds[i].cb
    ensures target.Batch? ==> forall i :: 0 <= i < |ds| ==> rs[i] == BatchAnswer(ds[i].cb, ds[i].result)
    ensures target.Single? ==> forall i :: 0 <= i < |ds| ==> rs[i] == SingleAnswer(ds[i].cb, Translate(ds[i].result))
  {
    if ds == [] then []
    else
      var a := if target.Batch? then BatchAnswer(ds[0].cb, ds[0].result)
               else SingleAnswer(ds[0].cb, Translate(ds[0].result));
      [a] + ToAnswers(target, ds[1..])
  }

  /** The coalescer an event for `target` reaches, if it still exists. */
  function Lookup(c: Telemetry, target: Target): Option<Coalescer.Impl> {
    if c.stopped then None
    else match target
      case Batch => Some(c.batch)
      case Single(ep) => if ep in c.singles then Some(c.singles[ep].impl) else None
  }

  function Replace(c: Telemetry, target: Target, impl: Coalescer.Impl): Telemetry
    requires Lookup(c, target).Some?
  {
    match target
    case Batch => c.(batch := impl)
    case Single(ep) => c.(singles := c.singles[ep := c.singles[ep].(impl := impl)])
  }

  /** A completion (send failure, timeout, worker task, flush pass or flush
      loop test) for one coalescer; a flush pass's deliveries reach the
      callers, translated for a single-peer coalescer. */
  function Complete(c: Telemetry, target: Target, k: Coalescer.Completion, now: nat): (d: Telemetry)
    requires Inv(c)
    ensures Lookup(c, target).None? ==> d == c
    ensures Lookup(c, target).Some? ==>
      && d.singles.Keys == c.singles.Keys && d.stopped == c.stopped
      && d.answers == c.answers + ToAnswersOf(c, target, k)
      && Lookup(d, target) == Some(Coalescer.Complete(Lookup(c, target).value, k, now))
      && (target.Single? ==> d.batch == c.batch)
      && (forall ep :: ep in c.singles && target != Single(ep) ==> d.singles[ep] == c.singles[ep])
  {
    match Lookup(c, target)
    case None => c
    case Some(impl) =>
      Replace(c, target, Coalescer.Complete(impl, k, now)).(answers := c.answers + ToAnswersOf(c, target, k))
  }

  /** The answers a completion hands to callers: those of a flush pass only. */
  function ToAnswersOf(c: Telemetry, target: Target, k: Coalescer.Completion): seq<Answer>
    requires Inv(c) && Lookup(c, target).Some?
  {
    if k.Invoke? then
      var impl := Lookup(c, target).value;
      PassWellFormed(c, target);
      ToAnswers(target, Coalescer.Delivered(impl))
    else []
  }

  /** The deliveries of a per-peer coalescer satisfy the translation's
      precondition: whenever all was received, exactly one report is handed on. */
  lemma PassWellFormed(c: Telemetry, target: Target)
    requires Inv(c) && Lookup(c, target).Some?
    ensures var ds := Coalescer.Delivered(Lookup(c, target).value);
      target.Single? ==> forall i :: 0 <= i < |ds| ==>
        (ds[i].result.allReceived ==> |ds[i].result.data| == 1)
  {
  }

  datatype Event =
    | RandomQuery(sample: set<Endpoint>, cb: CallbackId)
    | SingleQuery(channel: Option<Channel>, cb: CallbackId)
    | Reported(data: TelemetryData, from: Endpoint)
    | IdleCheck(ep: Endpoint)
    | Async(target: Target, k: Coalescer.Completion)
    | Shutdown

  function Step(c: Telemetry, e: Event, now: nat, cfg: Config): Telemetry
    requires Inv(c)
  {
    match e
    case RandomQuery(sample, cb) => GetMetricsRandomPeers(c, sample, cb, now, cfg)
    case SingleQuery(channel, cb) => GetMetricsSinglePeer(c, channel, cb, now, cfg)
    case Reported(data, from) => Add(c, data, from, now)
    case IdleCheck(ep) => OngoingCleanup(c, ep, now, cfg)
    case Async(target, k) => Complete(c, target, k, now)
    case Shutdown => Stop(c)
  }
}

=== FILE: coordinator_properties.dfy ===
/**
 Properties of the telemetry coordinator: its invariant (in particular the
 one-report shape of every per-peer coalescer, which the single-peer result
 translation relies on), append-only answers, shutdown, and end-to-end
 single-peer results.
 */
module CoordinatorProperties {
  import opened TelemetryTypes
  import Coalescer
  import CoalescerProperties
  import opened Coordinator

  /** Every event a per-peer coalescer can receive keeps its shape. */
  lemma ImplStepKeepsShape(s: Coalescer.Impl, ep: Endpoint, e: Coalescer.Event, now: nat, cutoff: nat)
    requires Coalescer.Valid(s) && SingleShaped(s, ep)
    requires Coalescer.Admissible(e) && (e.Query? ==> e.peers == {ep})
    ensures SingleShaped(Coalescer.Step(s, e, now, cutoff), ep)
  {
    match e
    case Query(peers, cb) =>
    case Reported(d, from) =>
      if from in s.required {
        assert from == ep && s.current == [];
        var t := Coalescer.Add(s, d, from, now);
        assert t.required == {} && t.cached == [d];
      }
    case Async(k) =>
  }

  lemma ImplStepKeepsBoth(s: Coalescer.Impl, ep: Endpoint, e: Coalescer.Event, now: nat, cutoff: nat)
    requires Coalescer.Valid(s) && SingleShaped(s, ep)
    requires Coalescer.Admissible(e) && (e.Query? ==> e.peers == {ep})
    ensures var t := Coalescer.Step(s, e, now, cutoff);
      Coalescer.Valid(t) && SingleShaped(t, ep)
  {
    CoalescerProperties.StepPreservesValid(s, e, now, cutoff);
    ImplStepKeepsShape(s, ep, e, now, cutoff);
  }

  /** Every coordinator event keeps the invariant. */
  lemma StepPreservesInv(c: Telemetry, e: Event, now: nat, cfg: Config)
    requires Inv(c)
    ensures Inv(Step(c, e, now, cfg))
  {
    match e
    case RandomQuery(sample, cb) =>
      if !c.stopped && sample != {} {
        CoalescerProperties.StepPreservesValid(c.batch, Coalescer.Query(sample, cb), now, cfg.cutoff);
      }
    case SingleQuery(channel, cb) =>
      if Accepts(c, channel, cfg) {
        var ep := channel.value.endpoint;
        var entry :=
          if ep in c.singles then c.singles[ep].(lastUpdated := now)
          else SingleRequest(Coalescer.Initial(), now);
        ImplStepKeepsBoth(entry.impl, ep, Coalescer.Query({ep}, cb), now, cfg.cutoff);
      }
    case Reported(data, from) =>
      if !c.stopped {
        var d := Add(c, data, from, now);
        CoalescerProperties.StepPreservesValid(c.batch, Coalescer.Reported(data, from), now, cfg.cutoff);
        forall ep | ep in d.singles
          ensures Coalescer.Valid(d.singles[ep].impl) && SingleShaped(d.singles[ep].impl, ep)
        {
          ImplStepKeepsBoth(c.singles[ep].impl, ep, Coalescer.Reported(data, from), now, cfg.cutoff);
        }
      }
    case IdleCheck(ep) =>
    case Async(target, k) =>
      if Lookup(c, target).Some? {
        var d := Complete(c, target, k, now);
        match target
        case Batch =>
          CoalescerProperties.StepPreservesValid(c.batch, Coalescer.Async(k), now, cfg.cutoff);
        case Single(ep) =>
          ImplStepKeepsBoth(c.singles[ep].impl, ep, Coalescer.Async(k), now, cfg.cutoff);
          forall other | other in d.singles
            ensures Coalescer.Valid(d.singles[other].impl) && SingleShaped(d.singles[other].impl, other)
          {
          }
      }
    case Shutdown =>
  }

  datatype Timed = Timed(e: Event, now: nat)

  /** A run of events from a state satisfying the invariant. Answers are only
      ever appended, and the invariant holds throughout. */
  function Run(c: Telemetry, es: seq<Timed>, cfg: Config): (d: Telemetry)
    requires Inv(c)
    ensures Inv(d)
    ensures |c.answers| <= |d.answers| && d.answers[..|c.answers|] == c.answers
    decreases |es|
  {
    if es == [] then c
    else
      StepPreservesInv(c, es[0].e, es[0].now, cfg);
      var c' := Step(c, es[0].e, es[0].now, cfg);
      StepExtendsAnswers(c, es[0].e, es[0].now, cfg);
      var d := Run(c', es[1..], cfg);
      assert d.answers[..|c'.answers|][..|c.answers|] == d.answers[..|c.answers|];
      d
  }

  lemma StepExtendsAnswers(c: Telemetry, e: Event, now: nat, cfg: Config)
    requires Inv(c)
    ensures var d := Step(c, e, now, cfg);
      |c.answers| <= |d.answers| && d.answers[..|c.answers|] == c.answers
  {
  }

  /** After shutdown, reports, completions and idle checks change nothing, and
      every query is answered at once: with an empty, not-all-received result
      for a random sample, with an error for a single peer. No entry is
      created. */
  lemma StoppedCoordinatorAnswersAtOnce(c: Telemetry, now: nat, cfg: Config, data: TelemetryData, from: Endpoint,
                                        target: Target, k: Coalescer.Completion, ep: Endpoint,
                                        sample: set<Endpoint>, channel: Option<Channel>, cb: CallbackId)
    requires Inv(c)
    ensures var s := Stop(c);
      && Add(s, data, from, now) == s
      && Complete(s, target, k, now) == s
      && OngoingCleanup(s, ep, now, cfg) == s
      && GetMetricsRandomPeers(s, sample, cb, now, cfg).answers == s.answers + [BatchAnswer(cb, Responses([], false, false))]
      && GetMetricsSinglePeer(s, channel, cb, now, cfg) == s.(answers := s.answers + [SingleAnswer(cb, ErrorResponse)])
  {
    var s := Stop(c);
    assert Inv(s);
  }

  /** An empty random sample never touches the batch coalescer. */
  lemma EmptySampleShortCircuits(c: Telemetry, cb: CallbackId, now: nat, cfg: Config)
    ensures var d := GetMetricsRandomPeers(c, {}, cb, now, cfg);
      && d.batch == c.batch && d.singles == c.singles
      && d.answers == c.answers + [BatchAnswer(cb, Responses([], false, false))]
  {
  }

  /** A query for a peer already known refreshes its timestamp and queues on
      the existing coalescer; a peer below the minimum version is refused
      without creating an entry. */
  lemma SingleQueryEntryRules(c: Telemetry, ch: Channel, cb: CallbackId, now: nat, cfg: Config)
    requires !c.stopped
    ensures var d := GetMetricsSinglePeer(c, Some(ch), cb, now, cfg);
      && (ch.version < cfg.minVersion ==> d.singles == c.singles && d.answers == c.answers + [SingleAnswer(cb, ErrorResponse)])
      && (ch.version >= cfg.minVersion && ch.endpoint in c.singles ==>
            && d.singles.Keys == c.singles.Keys
            && d.singles[ch.endpoint].lastUpdated == now
            && d.singles[ch.endpoint].impl
                 == Coalescer.GetMetrics(c.singles[ch.endpoint].impl, {ch.endpoint}, cb, now, cfg.cutoff))
      && (ch.version >= cfg.minVersion && ch.endpoint !in c.singles ==>
            d.singles[ch.endpoint] == SingleRequest(
              Coalescer.GetMetrics(Coalescer.Initial(), {ch.endpoint}, cb, now, cfg.cutoff), now))
  {
  }

  /** No cleanup alarm, whichever entry it belongs to, drops an entry that
      still has a pending callback or was queried within the cutoff; such an
      entry is kept unchanged, and its own alarm changes nothing at all. */
  lemma IdleCleanupSparesActiveEntries(c: Telemetry, ep: Endpoint, other: Endpoint, now: nat, cfg: Config)
    requires other in c.singles
    requires c.singles[other].impl.callbacks != [] || now <= c.singles[other].lastUpdated + cfg.cutoff
    ensures other in OngoingCleanup(c, ep, now, cfg).singles
    ensures OngoingCleanup(c, ep, now, cfg).singles[other] == c.singles[other]
    ensures other == ep ==> OngoingCleanup(c, ep, now, cfg) == c
  {
  }

  /** A first single-peer query for a peer outside the cache window, answered
      by that peer, yields the peer's report without error. */
  lemma SinglePeerAnswered(ch: Channel, cb: CallbackId, d: TelemetryData, t0: nat, t1: nat, cfg: Config)
    requires ch.version >= cfg.minVersion && cfg.cutoff <= t0
    ensures var c1 := GetMetricsSinglePeer(Create(), Some(ch), cb, t0, cfg);
      var c2 := Add(c1, d, ch.endpoint, t1);
      Inv(c2) &&
      Complete(c2, Single(ch.endpoint), Coalescer.Invoke, t1).answers == [SingleAnswer(cb, Response(d, false, false))]
  {
    var c0 := Create();
    var c1 := GetMetricsSinglePeer(c0, Some(ch), cb, t0, cfg);
    StepPreservesInv(c0, SingleQuery(Some(ch), cb), t0, cfg);
    var ep := ch.endpoint;
    var i1 := c1.singles[ep].impl;
    assert i1.required == {ep} && i1.allReceived && i1.callbacks == [cb] && i1.current == [];
    var c2 := Add(c1, d, ep, t1);
    StepPreservesInv(c1, Reported(d, ep), t1, cfg);
    var i2 := c2.singles[ep].impl;
    assert i2.invoking && i2.cached == [d] && i2.allReceived && !i2.flushCached && i2.callbacks == [cb];
    assert Coalescer.Delivered(i2) == [Delivery(cb, Responses([d], false, true))];
  }

  /** A single-peer query whose peer times out yields the error result. */
  lemma SinglePeerTimedOut(ch: Channel, cb: CallbackId, t0: nat, t1: nat, cfg: Config)
    requires ch.version >= cfg.minVersion && cfg.cutoff <= t0
    ensures var c1 := GetMetricsSinglePeer(Create(), Some(ch), cb, t0, cfg);
      var c2 := Complete(c1, Single(ch.endpoint), Coalescer.TimedOut(ch.endpoint, 1), t1);
      Inv(c2) &&
      Complete(c2, Single(ch.endpoint), Coalescer.Invoke, t1).answers == [SingleAnswer(cb, Response(DefaultData, false, true))]
  {
    var c0 := Create();
    var c1 := GetMetricsSinglePeer(c0, Some(ch), cb, t0, cfg);
    StepPreservesInv(c0, SingleQuery(Some(ch), cb), t0, cfg);
    var ep := ch.endpoint;
    var i1 := c1.singles[ep].impl;
    assert i1.required == {ep} && i1.round == 1 && i1.callbacks == [cb];
    var c2 := Complete(c1, Single(ep), Coalescer.TimedOut(ep, 1), t1);
    StepPreservesInv(c1, Async(Single(ep), Coalescer.TimedOut(ep, 1)), t1, cfg);
    var i2 := c2.singles[ep].impl;
    assert i2.invoking && !i2.allReceived && !i2.flushCached && i2.callbacks == [cb];
    assert Coalescer.Delivered(i2) == [Delivery(cb, Responses([], false, false))];
  }
}

=== FILE: landing.dfy ===
/**
 The token-distribution "landing": a halving schedule of amounts per time
 interval, and the catch-up loop that sends one amount per elapsed interval
 from a source account to a destination account.

 `interval_exponent` (e, at most 25) and `distribution_interval` (di, in
 seconds, positive) are compile-time constants of the node; they are
 parameters here. Store fields and times are `uint64_t`, so additions and
 subtractions on them wrap modulo 2^64, as written out below.
 */
module Landing {
  import opened Bits

  /** A 256-bit account number. */
  type Account = nat

  /** The hash of the block a wallet send created; zero when the send failed. */
  type BlockHash = nat

  /** The persisted state of a distribution: who pays whom, when it started
      and when the last interval was paid, in seconds since the epoch. */
  datatype LandingStore = LandingStore(source: Account, destination: Account, start: U64, last: U64)

  /** `landing_store::operator==`. */
  function Equal(a: LandingStore, b: LandingStore): (r: bool)
    ensures r <==> a == b
  {
    a.source == b.source && a.destination == b.destination && a.start == b.start && a.last == b.last
  }

  /** `a + b` on `uint64_t`: the sum modulo 2^64. Both operands are below
      2^64, so at most one wrap is taken off. */
  function Add64(a: U64, b: U64): (r: U64)
    ensures r == a + b || r + U64_LIMIT == a + b
    ensures r >= a <==> a + b < U64_LIMIT
  {
    if a + b < U64_LIMIT then a + b else a + b - U64_LIMIT
  }

  /** `a - b` on `uint64_t`: the difference modulo 2^64. */
  function Sub64(a: U64, b: U64): (r: U64)
    ensures r == a - b || r == a - b + U64_LIMIT
    ensures r <= a <==> b <= a
  {
    if b <= a then a - b else a - b + U64_LIMIT
  }

  /** Both are the machine's arithmetic modulo 2^64. */
  lemma WrapIsModular(a: U64, b: U64)
    ensures Add64(a, b) == (a + b) % U64_LIMIT
    ensures Sub64(a, b) == (a - b) % U64_LIMIT
  {
  }

  /** `a >> n` on a `uint64_t`. */
  function Shr64(a: U64, n: nat): (r: U64)
    ensures Pow2(n) * r <= a < Pow2(n) * r + Pow2(n)
  {
    FloorDiv(a, Pow2(n))
  }

  /** Intervals in one halving period: `1 << (25 - interval_exponent)`. */
  function IntervalsPerPeriod(e: nat): (n: nat)
    requires e <= 25
    ensures n == Pow2(25 - e) && n <= 0x200_0000
  {
    Pow2Monotone(25 - e, 25);
    Pow2Of25();
    Pow2(25 - e)
  }

  /** `landing::distribution_amount`: the amount sent for interval number
      `interval` since the start. */
  function DistributionAmount(interval: U64, e: nat): (r: U128)
    requires e <= 25
    ensures r == 0 <==> interval >= IntervalsPerPeriod(e) * 8
  {
    var perPeriod := IntervalsPerPeriod(e);
    var shift := 25 - e;
    if interval < perPeriod * 1 then
      Shl128(127 - shift)
    else if interval < perPeriod * 2 then
      Shl128(126 - shift)
    else if interval < perPeriod * 3 then
      Shl128(125 - shift)
    else if interval < perPeriod * 4 then
      Shl128(124 - shift)
    else if interval < perPeriod * 5 then
      Shl128(123 - shift)
    else if interval < perPeriod * 6 then
      Shl128(122 - shift)
    else if interval < perPeriod * 7 then
      Shl128(121 - shift)
    else if interval < perPeriod * 8 then
      Shl128(121 - shift)
    else
      0
  }

  /** The schedule by halving period: period k pays 2^(127 - k - (25 - e))
      for k up to 6, period 7 pays as much as period 6, and nothing after. */
  function AmountOfPeriod(k: nat, e: nat): nat
    requires e <= 25
  {
    if k <= 6 then Pow2(127 - k - (25 - e))
    else if k == 7 then Pow2(121 - (25 - e))
    else 0
  }

  /** The amount of an interval is that of its halving period `k`. */
  lemma DistributionAmountInPeriod(interval: U64, e: nat, k: nat)
    requires e <= 25
    requires IntervalsPerPeriod(e) * k <= interval < IntervalsPerPeriod(e) * k + IntervalsPerPeriod(e)
    ensures DistributionAmount(interval, e) == AmountOfPeriod(k, e)
  {
    var p := IntervalsPerPeriod(e);
    BelowMultiple(interval, p, k, 1);
    BelowMultiple(interval, p, k, 2);
    BelowMultiple(interval, p, k, 3);
    BelowMultiple(interval, p, k, 4);
    BelowMultiple(interval, p, k, 5);
    BelowMultiple(interval, p, k, 6);
    BelowMultiple(interval, p, k, 7);
    BelowMultiple(interval, p, k, 8);
  }

  /** Each of periods 1 to 6 pays exactly half of the period before. */
  lemma PeriodsHalve(k: nat, e: nat)
    requires e <= 25 && 1 <= k <= 6
    ensures 2 * AmountOfPeriod(k, e) == AmountOfPeriod(k - 1, e)
  {
  }

  /** Period 7 repeats period 6 instead of halving it. */
  lemma SeventhPeriodRepeatsSixth(e: nat)
    requires e <= 25
    ensures AmountOfPeriod(7, e) == AmountOfPeriod(6, e)
    ensures AmountOfPeriod(8, e) == 0
  {
  }

  lemma AmountOfPeriodNonIncreasing(k1: nat, k2: nat, e: nat)
    requires e <= 25 && k1 <= k2
    ensures AmountOfPeriod(k2, e) <= AmountOfPeriod(k1, e)
  {
    if k2 <= 6 {
      Pow2Monotone(127 - k2 - (25 - e), 127 - k1 - (25 - e));
    } else if k2 == 7 && k1 <= 6 {
      Pow2Monotone(121 - (25 - e), 127 - k1 - (25 - e));
    }
  }

  /** The halving period interval number `interval` falls in. */
  function PeriodOf(interval: U64, e: nat): (k: nat)
    requires e <= 25
    ensures IntervalsPerPeriod(e) * k <= interval < IntervalsPerPeriod(e) * k + IntervalsPerPeriod(e)
  {
    FloorDiv(interval, IntervalsPerPeriod(e))
  }

  lemma PeriodOfMonotone(i1: U64, i2: U64, e: nat)
    requires e <= 25 && i1 <= i2
    ensures PeriodOf(i1, e) <= PeriodOf(i2, e)
  {
    var p := IntervalsPerPeriod(e);
    MulOrder(PeriodOf(i2, e), PeriodOf(i1, e), p);
  }

  /** Later intervals never pay more. */
  lemma DistributionAmountNonIncreasing(i1: U64, i2: U64, e: nat)
    requires e <= 25 && i1 <= i2
    ensures DistributionAmount(i2, e) <= DistributionAmount(i1, e)
  {
    var k1, k2 := PeriodOf(i1, e), PeriodOf(i2, e);
    DistributionAmountInPeriod(i1, e, k1);
    DistributionAmountInPeriod(i2, e, k2);
    PeriodOfMonotone(i1, i2, e);
    AmountOfPeriodNonIncreasing(k1, k2, e);
  }

  /** What a whole halving period pays out: half the supply of 2^128 for
      the first period, halving each period up to the sixth, the sixth's
      amount again for the seventh, and nothing after. */
  function PeriodPayout(k: nat): nat {
    if k <= 6 then Pow2(127 - k) else if k == 7 then Pow2(121) else 0
  }

  /** A period's payout is its per-interval amount for every interval of it,
      whatever the interval exponent. */
  lemma PeriodPaysPayout(k: nat, e: nat)
    requires e <= 25
    ensures IntervalsPerPeriod(e) * AmountOfPeriod(k, e) == PeriodPayout(k)
  {
    if k <= 6 {
      Pow2Add(25 - e, 127 - k - (25 - e));
    } else if k == 7 {
      Pow2Add(25 - e, 121 - (25 - e));
    }
  }

  /** The amount paid over the first `n` whole periods. */
  function ScheduleTotal(n: nat): nat {
    if n == 0 then 0 else ScheduleTotal(n - 1) + PeriodPayout(n - 1)
  }

  /** The repeated seventh period closes the gap: the whole schedule pays
      out exactly 2^128, and nothing is paid after it. */
  lemma {:induction false} ScheduleTotalIsSupply(n: nat)
    requires n >= 8
    ensures ScheduleTotal(n) == U128_LIMIT
  {
    if n == 8 {
      Pow2Of128();
    } else {
      ScheduleTotalIsSupply(n - 1);
    }
  }

  /** `store.last` after k successful sends starting from `last`. */
  function Advance(last: U64, di: U64, k: nat): U64
    decreases k
  {
    if k == 0 then last else Add64(Advance(last, di, k - 1), di)
  }

  /** Without wrap-around, k sends advance `last` by exactly k intervals. */
  lemma {:induction false} AdvanceWithoutWrap(last: U64, di: U64, k: nat)
    requires last + k * di < U64_LIMIT
    ensures Advance(last, di, k) == last + k * di
    decreases k
  {
    if k > 0 {
      MulSucc(k - 1, di);
      AdvanceWithoutWrap(last, di, k - 1);
    }
  }

  /** The amount `distribute_one` sends next from `store`: that of the
      interval number of `store.last` since `store.start`. */
  function NextAmount(store: LandingStore, e: nat): U128
    requires e <= 25
  {
    DistributionAmount(Shr64(Sub64(store.last, store.start), e), e)
  }

  /** The length of a halving period in seconds, 2^25. */
  const PERIOD_SECONDS: nat := 0x200_0000

  /** A halving period lasts 2^25 seconds, whatever the interval exponent:
      while `last` is not before `start`, the next amount is that of the
      period the time elapsed since `start` falls in. */
  lemma NextAmountByElapsedTime(store: LandingStore, e: nat, k: nat)
    requires e <= 25 && store.start <= store.last
    requires PERIOD_SECONDS * k <= store.last - store.start < PERIOD_SECONDS * k + PERIOD_SECONDS
    ensures NextAmount(store, e) == AmountOfPeriod(k, e)
  {
    var elapsed := Sub64(store.last, store.start);
    var p := IntervalsPerPeriod(e);
    Pow2Add(e, 25 - e);
    Pow2Of25();
    NestedFloor(elapsed, Pow2(e), p, Shr64(elapsed, e), k);
    DistributionAmountInPeriod(Shr64(elapsed, e), e, k);
  }

  /** The amount of the k-th send of a catch-up from `store`. */
  function PlannedAmount(store: LandingStore, k: nat, e: nat, di: U64): U128
    requires e <= 25
  {
    NextAmount(store.(last := Advance(store.last, di, k)), e)
  }

  lemma Shr64Monotone(a: U64, b: U64, n: nat)
    requires a <= b
    ensures Shr64(a, n) <= Shr64(b, n)
  {
    MulOrder(Shr64(b, n), Shr64(a, n), Pow2(n));
  }

  /** Without wrap-around, later sends start from a later `last`. */
  lemma AdvanceGrows(last: U64, di: U64, i: nat, j: nat)
    requires i <= j && last + j * di < U64_LIMIT
    ensures last <= Advance(last, di, i) <= Advance(last, di, j)
  {
    MulMonotone(i, j, di);
    AdvanceWithoutWrap(last, di, i);
    AdvanceWithoutWrap(last, di, j);
  }

  /** Without wrap-around, a later `last` is a longer time since `start`. */
  lemma ElapsedGrows(start: U64, x: U64, y: U64)
    requires start <= x <= y
    ensures Sub64(x, start) <= Sub64(y, start)
  {
    assert Sub64(x, start) == x - start;
    assert Sub64(y, start) == y - start;
  }

  /** While `last` neither wraps nor precedes `start`, each send of a
      catch-up pays no more than the one before it. */
  lemma PlannedAmountsNonIncreasing(store: LandingStore, i: nat, j: nat, e: nat, di: U64)
    requires e <= 25 && i <= j
    requires store.start <= store.last && store.last + j * di < U64_LIMIT
    ensures PlannedAmount(store, j, e, di) <= PlannedAmount(store, i, e, di)
  {
    var a := Sub64(Advance(store.last, di, i), store.start);
    var b := Sub64(Advance(store.last, di, j), store.start);
    AdvanceGrows(store.last, di, i, j);
    ElapsedGrows(store.start, Advance(store.last, di, i), Advance(store.last, di, j));
    Shr64Monotone(a, b, e);
    DistributionAmountNonIncreasing(Shr64(a, e), Shr64(b, e), e);
  }

  /** One wallet send: from, to, amount and the resulting block hash. */
  datatype Transfer = Transfer(source: Account, destination: Account, amount: U128, block: BlockHash)

  /** One interval's advance below `now` either moves `last` forward or,
      from at or after `now`, wraps it below `now`. */
  lemma SendAdvances(last: U64, di: U64, now: U64)
    requires 0 < di && now + di < U64_LIMIT && Add64(last, di) < now
    ensures last < now ==> Add64(last, di) == last + di
    ensures last >= now ==> Add64(last, di) < now
  {
  }

  /** The first `|sent|` transfers of a catch-up from `store` are the planned
      ones, each for the amount `amount` gives the store of its interval and
      paid with the wallet's block hash. */
  predicate PlannedTransfers(store: LandingStore, amount: LandingStore -> U128, di: U64,
                             wallet: nat -> BlockHash, sent: seq<Transfer>)
  {
    forall i :: 0 <= i < |sent| ==>
      sent[i] == Transfer(store.source, store.destination,
                          amount(store.(last := Advance(store.last, di, i))), wallet(i))
  }

  /** The intervals of the first `n` sends had all fully elapsed at `now`. */
  predicate Elapsed(store: LandingStore, di: U64, now: U64, n: nat) {
    forall i :: 0 <= i < n ==> Add64(Advance(store.last, di, i), di) < now
  }

  /** What a catch-up from `store` has done so far: `sent` holds the planned
      transfers, each for an interval that had elapsed at `now`; every send
      but a failed last one succeeded, and `final` is `store` advanced by the
      successful ones. */
  predicate CatchUp(store: LandingStore, now: U64, amount: LandingStore -> U128, di: U64,
                    wallet: nat -> BlockHash, final: LandingStore, sent: seq<Transfer>, failed: bool)
  {
    && final.source == store.source && final.destination == store.destination
    && final.start == store.start
    && PlannedTransfers(store, amount, di, wallet, sent)
    && Elapsed(store, di, now, |sent|)
    && (forall i :: 0 <= i < |sent| - 1 ==> wallet(i) != 0)
    && (failed <==> |sent| > 0 && wallet(|sent| - 1) == 0)
    && final.last == Advance(store.last, di, if failed then |sent| - 1 else |sent|)
  }

  lemma PlannedTransfersStep(store: LandingStore, amount: LandingStore -> U128, di: U64,
                             wallet: nat -> BlockHash, final: LandingStore, sent: seq<Transfer>)
    requires PlannedTransfers(store, amount, di, wallet, sent)
    requires final == store.(last := Advance(store.last, di, |sent|))
    ensures PlannedTransfers(store, amount, di, wallet,
      sent + [Transfer(final.source, final.destination, amount(final), wallet(|sent|))])
  {
    var sent' := sent + [Transfer(final.source, final.destination, amount(final), wallet(|sent|))];
    forall i | 0 <= i < |sent'|
      ensures sent'[i] == Transfer(store.source, store.destination,
                                   amount(store.(last := Advance(store.last, di, i))), wallet(i))
    {
      if i < |sent| {
        assert sent'[i] == sent[i];
      }
    }
  }

  lemma ElapsedStep(store: LandingStore, di: U64, now: U64, n: nat)
    requires Elapsed(store, di, now, n)
    requires Add64(Advance(store.last, di, n), di) < now
    ensures Elapsed(store, di, now, n + 1)
  {
    forall i | 0 <= i < n + 1
      ensures Add64(Advance(store.last, di, i), di) < now
    {
      if i < n {
        assert Add64(Advance(store.last, di, i), di) < now;
      }
    }
  }

  /** One more send of a catch-up that has not failed, for an interval that
      has elapsed. */
  lemma CatchUpStep(store: LandingStore, now: U64, amount: LandingStore -> U128, di: U64,
                    wallet: nat -> BlockHash, final: LandingStore, sent: seq<Transfer>)
    requires CatchUp(store, now, amount, di, wallet, final, sent, false)
    requires Add64(final.last, di) < now
    ensures var block := wallet(|sent|);
      CatchUp(store, now, amount, di, wallet,
              if block != 0 then final.(last := Add64(final.last, di)) else final,
              sent + [Transfer(final.source, final.destination, amount(final), block)],
              block == 0)
  {
    var n := |sent|;
    assert final == store.(last := Advance(store.last, di, n));
    PlannedTransfersStep(store, amount, di, wallet, final, sent);
    ElapsedStep(store, di, now, n);
    if wallet(n) != 0 {
      assert Advance(store.last, di, n + 1) == Add64(final.last, di);
    }
  }

  /** A finished catch-up, in terms of the distribution schedule. */
  lemma CatchUpDone(store: LandingStore, now: U64, e: nat, di: U64, wallet: nat -> BlockHash,
                    amount: LandingStore -> U128, final: LandingStore, sent: seq<Transfer>, failed: bool)
    requires e <= 25
    requires forall s :: amount(s) == NextAmount(s, e)
    requires CatchUp(store, now, amount, di, wallet, final, sent, failed)
    requires !failed ==> Add64(final.last, di) >= now
    ensures final.source == store.source && final.destination == store.destination
    ensures final.start == store.start
    ensures forall i :: 0 <= i < |sent| ==>
      sent[i] == Transfer(store.source, store.destination, PlannedAmount(store, i, e, di), wallet(i))
    ensures forall i :: 0 <= i < |sent| ==> Add64(Advance(store.last, di, i), di) < now
    ensures forall i :: 0 <= i < |sent| - 1 ==> wallet(i) != 0
    ensures |sent| > 0 && wallet(|sent| - 1) == 0 ==> final.last == Advance(store.last, di, |sent| - 1)
    ensures !(|sent| > 0 && wallet(|sent| - 1) == 0) ==>
      final.last == Advance(store.last, di, |sent|) && Add64(final.last, di) >= now
  {
  }

  /** The loop of `landing::distribute_one` for any per-interval amount:
      while the interval after `final.last` has fully elapsed at `now` and no
      send has failed, send that interval's amount and advance `final.last`
      by one interval. Reports whether the last send failed. */
  method CatchUpLoop(store: LandingStore, now: U64, amount: LandingStore -> U128, di: U64,
                     wallet: nat -> BlockHash)
    returns (final: LandingStore, sent: seq<Transfer>, failed: bool)
    requires 0 < di && now + di < U64_LIMIT
    ensures CatchUp(store, now, amount, di, wallet, final, sent, failed)
    ensures !failed ==> Add64(final.last, di) >= now
  {
    final := store;
    sent := [];
    var block: BlockHash := 1;
    while block != 0 && Add64(final.last, di) < now
      invariant CatchUp(store, now, amount, di, wallet, final, sent, block == 0)
      invariant block != 0 && |sent| > 0 ==> final.last < now
      decreases (if block != 0 then 1 else 0), (if final.last < now then 0 else 1),
        (if final.last < now then now - final.last else 0)
    {
      CatchUpStep(store, now, amount, di, wallet, final, sent);
      SendAdvances(final.last, di, now);
      block := wallet(|sent|);
      sent := sent + [Transfer(final.source, final.destination, amount(final), block)];
      if block != 0 {
        final := final.(last := Add64(final.last, di));
      }
    }
    failed := block == 0;
  }

  /** `landing::distribute_one`: catch up on every fully elapsed interval,
      sending the scheduled amount of each, until a send fails. The wallet is
      an oracle giving the block hash of the i-th send; the store writes
      after each success are not modelled. */
  method DistributeOne(store: LandingStore, now: U64, e: nat, di: U64, wallet: nat -> BlockHash)
    returns (final: LandingStore, sent: seq<Transfer>)
    requires e <= 25 && 0 < di
    requires now + di < U64_LIMIT
    ensures final.source == store.source && final.destination == store.destination
    ensures final.start == store.start
    ensures forall i :: 0 <= i < |sent| ==>
      sent[i] == Transfer(store.source, store.destination, PlannedAmount(store, i, e, di), wallet(i))
    ensures forall i :: 0 <= i < |sent| ==> Add64(Advance(store.last, di, i), di) < now
    ensures forall i :: 0 <= i < |sent| - 1 ==> wallet(i) != 0
    ensures |sent| > 0 && wallet(|sent| - 1) == 0 ==> final.last == Advance(store.last, di, |sent| - 1)
    ensures !(|sent| > 0 && wallet(|sent| - 1) == 0) ==>
      final.last == Advance(store.last, di, |sent|) && Add64(final.last, di) >= now
  {
    var amountOf := (s: LandingStore) => NextAmount(s, e);
    var failed;
    final, sent, failed := CatchUpLoop(store, now, amountOf, di, wallet);
    CatchUpDone(store, now, e, di, wallet, amountOf, final, sent, failed);
  }
}

=== FILE: telemetry_types.dfy ===
/**
 Values exchanged by the telemetry subsystem of the node: peer endpoints, the
 (opaque) metrics payload, and the result records handed to callers.
 */
module TelemetryTypes {

  datatype Option<+T> = None | Some(value: T)

  /** A peer's network address; the key under which peers are tracked. */
  datatype Endpoint = Endpoint(address: nat, port: nat)

  /** One peer's metrics report. Its fields are not modelled; only equality matters. */
  datatype TelemetryData = TelemetryData(payload: seq<int>)

  /** A default-constructed report, handed out with error results. */
  const DefaultData: TelemetryData := TelemetryData([])

  /** Identifies one result continuation registered by a caller. */
  type CallbackId = nat

  /** Result of a query over a set of peers (`telemetry_data_responses`): the
      reports, whether they came from the cache, and whether every requested
      peer answered. */
  datatype Responses = Responses(data: seq<TelemetryData>, isCached: bool, allReceived: bool)

  /** Result of a single-peer query (`telemetry_data_response`). */
  datatype Response = Response(data: TelemetryData, isCached: bool, error: bool)

  /** A transport channel to one peer, as far as telemetry looks at it. */
  datatype Channel = Channel(endpoint: Endpoint, version: nat)

  /** One invocation of a callback with a result. */
  datatype Delivery = Delivery(cb: CallbackId, result: Responses)

  /** Invoking every callback of `cbs`, in queue order, with the same result `r`. */
  function DeliverAll(cbs: seq<CallbackId>, r: Responses): (ds: seq<Delivery>)
    ensures |ds| == |cbs|
    ensures forall i :: 0 <= i < |ds| ==> ds[i].cb == cbs[i] && ds[i].result == r
  {
    if cbs == [] then [] else [Delivery(cbs[0], r)] + DeliverAll(cbs[1..], r)
  }

  /** The callbacks invoked by a sequence of deliveries, in invocation order. */
  function Invoked(ds: seq<Delivery>): (cbs: seq<CallbackId>)
    ensures |cbs| == |ds|
    ensures forall i :: 0 <= i < |ds| ==> cbs[i] == ds[i].cb
  {
    if ds == [] then [] else [ds[0].cb] + Invoked(ds[1..])
  }

  lemma InvokedAppend(a: seq<Delivery>, b: seq<Delivery>)
    ensures Invoked(a + b) == Invoked(a) + Invoked(b)
  {
    assert forall i :: 0 <= i < |a + b| ==> Invoked(a + b)[i] == (Invoked(a) + Invoked(b))[i];
  }

  lemma InvokedDeliverAll(cbs: seq<CallbackId>, r: Responses)
    ensures Invoked(DeliverAll(cbs, r)) == cbs
  {
  }
}

=== FILE: test_system.dfy ===
/**
 The arithmetic of the test system's random send amount: a uniformly drawn
 128-bit number scaled onto the account's balance through a 256-bit
 product. The random draw and the balance lookup are inputs.
 */
module TestSystem {
  import opened Bits

  /** The 256-bit product of two 128-bit numbers never wraps. */
  lemma ProductFits256(random: U128, balance: U128)
    ensures random * balance <= U128_MAX * U128_MAX < U256_LIMIT
  {
    MulMonotone(random, U128_MAX, balance);
    MulMonotone(balance, U128_MAX, U128_MAX);
  }

  /** Scaling `y` by the fraction `x / m`, rounded down, with `x <= m`. */
  lemma ScaledFloor(x: nat, y: nat, m: nat)
    requires 0 < m && x <= m
    ensures FloorDiv(x * y, m) <= y
    ensures x == 0 ==> FloorDiv(x * y, m) == 0
    ensures x == m ==> FloorDiv(x * y, m) == y
  {
    var q := FloorDiv(x * y, m);
    MulMonotone(x, m, y);
    MulOrder(y, q, m);
    MulOrder(q, y, m);
    MulOrder(0, q, m);
  }

  /** `system::get_random_amount`: `random * balance / max(uint128)`, rounded
      down, as a fraction `random / max` of the balance. */
  function GetRandomAmount(random: U128, balance: U128): (r: U128)
    ensures r <= balance
    ensures U128_MAX * r <= random * balance < U128_MAX * r + U128_MAX
    ensures random == 0 ==> r == 0
    ensures random == U128_MAX ==> r == balance
  {
    ScaledFloor(random, balance, U128_MAX);
    FloorDiv(random * balance, U128_MAX)
  }

  /** A larger draw never yields a smaller amount. */
  lemma GetRandomAmountMonotone(r1: U128, r2: U128, balance: U128)
    requires r1 <= r2
    ensures GetRandomAmount(r1, balance) <= GetRandomAmount(r2, balance)
  {
    var a1, a2 := GetRandomAmount(r1, balance), GetRandomAmount(r2, balance);
    MulMonotone(r1, r2, balance);
    MulOrder(a2, a1, U128_MAX);
  }
}
